=== FILE: README.md ===
# Prompt template renderer

A Dafny model of the prompt renderer of a small relay service that turns
client requests into prompts for a language-model completion API. The one
piece of logic in the service is `renderTemplate`: a single
`String.replace` with the global regular expression `\$\{\s*([^}]+)\s*\}`
and a callback that looks each captured key up in a context whose values are
strings or lists of strings. The model also covers the one place the
renderer is used: the scoring prompt `templateScoreUserAnswer`, rendered
with the request's `domain`, `word` and `userAnswer`.

Files:

- `template.dfy` (module `Template`): values and contexts, the whitespace
  class `\s`, the token matcher (`CloseAt`, `MatchAt`), key extraction
  (`KeyOf`), the left-to-right scan (`Scan`, with its inverse `Unscan`), the
  callback (`Lookup`, `Join`) and `Render` itself, defined as the callback's
  output for each piece of the scan.
- `template_laws.dfy` (module `TemplateLaws`): what rendering promises.
- `score_prompt.dfy` (module `ScorePrompt`): the scoring template, the
  context the request handler builds, and what the rendered prompt is.

How the regex behaves, as modelled:

- A token starts at a `$` followed by `{` and ends at the first `}` after
  it; at least one character must lie between. `${}` and a `${` with no
  later `}` are not tokens and are copied.
- The captured key drops the whitespace after `${` (greedy `\s*`). When the
  whole name is whitespace, the regex backtracks one character, so the key
  is the last whitespace character.
- Whitespace before `}` stays in the key: the greedy `[^}]+` takes it before
  the trailing `\s*` can, so that `\s*` never takes anything and
  `${domain }` looks up `"domain "`.
- Matches never overlap, and a replacement is never scanned again.
- A string value is used as it is, the empty string included, because `??`
  only falls back on `undefined` or `null`. A list is joined with `", "`.
  A missing key gives `"${" + key + "}"`.

Two consequences of the code that a reader might not expect:

- Rendering is a single pass, so the output may still contain `${...}`.
  Replacements are never scanned again: a value that contains `${x}` stays
  in the output as it is, even when `x` is bound (`NoRescan`). A `$` just
  before a token whose value starts with `{` forms a new `${...}` in the
  output, which is not expanded either (`DollarBeforeToken`).
- The comment at index.ts:60 says a placeholder with no value is left in
  place. The code rebuilds it from the captured key, which drops the
  whitespace after `${`, except the last character of an all-whitespace
  name, so
  `${ word}` with `word` missing becomes `${word}`. A token with a missing
  key comes back exactly as written when its name is its own key: no
  whitespace after `${`, or a name of one character such as `${ }`
  (`KeyOfItself`, `RenderMissingKey`, `RenderSingleSpaceMissing`,
  `RenderEmptyContext`).

## Model

| member | source | states |
|---|---|---|
| Template.Render | index.ts:54-62 | `renderTemplate` itself, defined as the callback's output for each piece of the scan; its behaviour is stated by `RenderLit` (where no token starts, one character is copied) and `RenderTokenPrefix` (a token becomes the callback's result), which together fix the output of every template |
| Template.Lookup | index.ts:56-60 | the replacement callback; what it returns is stated by `RenderStringValue`, `RenderListValue` and `RenderMissingKey` |
| Template.IsSpace | index.ts:55 | the class `\s`: tab, line feed, vertical tab, form feed, carriage return, U+FEFF, the line and paragraph separators and the seventeen space separators; none of them is `}`, which `KeyDropsLeadingSpace` and `RenderLeadingSpace` (through `SpacesThenName`) and `RenderTrailingSpace` rely on |
| Template.Join | index.ts:58 | `join` gives `""` for no elements and starts with the first element; `JoinEndsWithLast`, `JoinLength` and `JoinAppend` state the rest |
| Template.CloseAt | index.ts:55 | the result is the position of the first `}`, or the length when there is none: no `}` before it, and a `}` at it |
| Template.MatchAt | index.ts:55 | a found name is non-empty, has no `}`, and the text starts with `${name}`; the text is that token followed by the rest |
| Template.MatchAtComplete | index.ts:55 | whenever a text starts with `${name}` for a non-empty, `}`-free name, the matcher finds exactly that name, so there is at most one token at a position |
| Template.KeyOf | index.ts:55 | the key is a non-empty suffix of the name; everything dropped before it is whitespace; the key starts with a non-whitespace character unless it is a single character |
| Template.Scan | index.ts:55 | the pieces spell the template back exactly, and every hole holds a valid name |
| TemplateLaws.ScanIsScanned | index.ts:55 | the scan copies a character only where no token starts, so it follows the leftmost-match rule |
| TemplateLaws.ScanUnique | index.ts:55 | any piece list that spells a text and follows the leftmost-match rule is the scan of that text |
| TemplateLaws.ScanLiteralPrefix | index.ts:55 | text without `$` becomes one copied piece per character, followed by the scan of what comes after |
| TemplateLaws.EmitConcat | index.ts:55-61 | the output for a concatenation of pieces is the concatenation of their outputs |
| TemplateLaws.RenderLit | index.ts:55 | where no token starts, the first character is copied and rendering continues after it |
| TemplateLaws.RenderLiteralPrefix | index.ts:54-55 | text without `$` is copied unchanged and in order, and rendering continues after it |
| TemplateLaws.RenderNoDollar | index.ts:54-55 | a template without `$` renders to itself under every context |
| TemplateLaws.RenderNoCloseBrace | index.ts:55 | a template without `}` renders to itself, so an unterminated `${` is copied |
| TemplateLaws.RenderEmptyBraces | index.ts:55 | `${}` is copied as three characters and rendering continues after it |
| TemplateLaws.RenderTokenPrefix | index.ts:55-61 | a token is replaced by the callback's result for its key, and scanning resumes right after its `}` |
| TemplateLaws.RenderStringValue | index.ts:56-60 | a key bound to a string is replaced by exactly that string, the empty string included |
| TemplateLaws.RenderListValue | index.ts:57-58 | a key bound to a list is replaced by its elements joined with `", "` |
| TemplateLaws.RenderMissingKey | index.ts:60 | a missing key is replaced by `${key}`, which is the original token when the name is a single character or no whitespace follows `${` |
| TemplateLaws.KeyOfItself | index.ts:55 | a name is its own key exactly when it is a single character or does not start with whitespace |
| TemplateLaws.RenderSingleSpaceMissing | index.ts:55-60 | `${ }` with the key `" "` missing is put back as written |
| TemplateLaws.EmitEmptyContext | index.ts:56-60 | with an empty context, pieces whose holes are their own keys are output as the text they were scanned from |
| TemplateLaws.RenderEmptyContext | index.ts:54-61 | with an empty context, every template whose matched tokens have names that are their own keys (a single character, or no whitespace after `${`) renders to itself; text inside a matched token is not constrained |
| TemplateLaws.RenderNoToken | index.ts:54-55 | a template in which no token starts anywhere renders to itself under every context, whatever `$`, `{` and `}` it holds |
| TemplateLaws.NoTokenExample | index.ts:55 | `$a}x${ b` holds a `$` before `}` and an unterminated `${`, and is copied unchanged |
| TemplateLaws.KeyDropsLeadingSpace | index.ts:55 | any run of whitespace before a name does not change its key |
| TemplateLaws.KeyKeepsTrailingSpace | index.ts:55 | a name that does not start with whitespace is its own key, trailing whitespace included |
| TemplateLaws.KeyOfAllSpace | index.ts:55 | an all-whitespace name has its last character as key |
| TemplateLaws.RenderLeadingSpace | index.ts:55-60 | `${` + whitespace + key + `}` is replaced by the value of the key without the whitespace |
| TemplateLaws.RenderTrailingSpace | index.ts:55-60 | `${key }` is replaced by the callback's result for the key with its trailing whitespace, so a binding of the bare key is not used; when that key is unbound the token stays as written |
| TemplateLaws.NoRescan | index.ts:55 | a replacement that is itself a token is output as it is, even when the context binds that token's key |
| TemplateLaws.DollarBeforeToken | index.ts:55 | a `$` before a token whose value starts with `{` yields a `${...}` in the output that is not expanded |
| TemplateLaws.JoinEndsWithLast | index.ts:58 | a joined non-empty list ends with its last element |
| TemplateLaws.JoinLength | index.ts:58 | a joined list is as long as its elements plus one separator between each neighbouring pair |
| TemplateLaws.JoinAppend | index.ts:58 | appending an element appends the separator and that element to the joined text |
| TemplateLaws.JoinExamples | index.ts:58 | `[]` joins to `""`, `[x]` to `x`, and `[a, b, c]` to `a`, separator, `b`, separator, `c` |
| ScorePrompt.ScoreContext | index.ts:166-172 | the context binds exactly the fields the request supplies, each to its string value |
| ScorePrompt.ScoreTemplate | index.ts:73-87 | the text of `templateScoreUserAnswer` character for character; `RenderScoreTemplate` states that its three placeholders `${domain}`, `${word}` and `${userAnswer}` are its only tokens |
| ScorePrompt.RenderScoreTemplate | index.ts:73-87 | the rendered scoring template is its text with the three placeholders replaced by the callback's results for `domain`, `word` and `userAnswer` |
| ScorePrompt.RenderThreeTokens | index.ts:54-62 | text, token, text, token, text, token, text renders to the texts unchanged with each token replaced by its value |
| ScorePrompt.ScoreUserAnswerPrompt | index.ts:164-172 | the handler's prompt has each supplied field in place of its placeholder, and the placeholder itself for a field left out |
| ScorePrompt.ScorePromptAllSupplied | index.ts:168-172 | with all three fields supplied, no fallback is taken: each placeholder becomes its value and all other text is unchanged |

## Left out

- Express setup, CORS, the `OPTIONS` handler, the port and `app.listen`
  (index.ts:1-18, 192-194): server plumbing with no logic of its own.
- The `/health` handler (index.ts:132-134): it only reports the wall clock.
- The `/generateQuestion` and `/scoreUserAnswer` handlers beyond building
  the scoring prompt (index.ts:136-190): they call the completion provider,
  parse its reply with `JSON.parse`, write the HTTP response and log. The
  provider and the JSON parser are foreign code.
- `generateQuestionTemplate` (index.ts:64-71): its only logic is the
  built-in `JSON.stringify` of the seen-words list, a foreign serialiser.
- `toolsGenerateQuestion` (index.ts:89-130): static data for the provider.
- Property lookup quirks of JavaScript objects (keys such as `constructor`
  found on the prototype): the context is a plain finite map.
- Strings are sequences of Unicode scalar values, not UTF-16 code units.
  For this regex the two agree, because `}` and every `\s` character lie in
  the Basic Multilingual Plane. `\s` is the ECMAScript WhiteSpace and
  LineTerminator set, with the space separators (category Zs) of Unicode
  6.3 and later, which no longer include U+180E.
- ScorePrompt.ScoreContext: a request field is either a string or absent.
  A JSON body could carry any other JSON value there (a number, a boolean,
  `null`, an array or an object); `null` would fall back like an absent
  field, an array would be joined with `", "`, and the others would be
  converted to a string by `replace`. None of these cases is modelled.

=== FILE: score_prompt.dfy ===
/** The scoring prompt: the template `templateScoreUserAnswer` and the way
    the `/scoreUserAnswer` handler renders it with the request's `domain`,
    `word` and `userAnswer`. */
module ScorePrompt {

  import opened Template
  import opened TemplateLaws

  /** The text of `templateScoreUserAnswer` around its three placeholders,
      written in short pieces so that the verifier can see that none of them
      holds a `$`. */
  const Intro: string :=
    "\nYou are scoring a "
    + "definition provided by a "
    + "student of a term in the "
    + "domain of "
  const AfterDomain: string := ScoreFormat + ScoreInterface
  const ScoreFormat: string :=
    ". The result will be in "
    + "the format of a score "
    + "between 0 and 1. The "
    + "result will be returned "
    + "in a JSON format in the "
    + "following form:\n\n"
  const ScoreInterface: string :=
    "interface "
    + "OpenAIScoringResponse {\n  "
    + "similarityScore: number;\n"
    + "}\n\nThe word is "
  const AfterWord: string :=
    ".\n\nThe provided "
    + "definition is: "
  const AfterAnswer: string :=
    "\n\nYou are *never* to "
    + "return me an answer that "
    + "is not pure JSON.  You "
    + "only answer in the JSON "
    + "format provided.\n\nYour "
    + "response must be valid "
    + "JSON. Do not include any "
    + "text before or after the "
    + "JSON object.\n"

  /** `templateScoreUserAnswer`. */
  const ScoreTemplate: string :=
    Intro + "${domain}" + AfterDomain + "${word}" + AfterWord + "${userAnswer}" + AfterAnswer

  /** The record `{domain, word, userAnswer}` built from the request body; a
      field the body leaves out is `undefined`, which the renderer treats
      like a missing key. */
  function ScoreContext(domain: Option<string>, word: Option<string>, userAnswer: Option<string>): (ctx: Context)
    ensures ctx.Keys <= {"domain", "word", "userAnswer"}
    ensures "domain" in ctx <==> domain.Some?
    ensures "word" in ctx <==> word.Some?
    ensures "userAnswer" in ctx <==> userAnswer.Some?
    ensures domain.Some? ==> ctx["domain"] == Str(domain.value)
    ensures word.Some? ==> ctx["word"] == Str(word.value)
    ensures userAnswer.Some? ==> ctx["userAnswer"] == Str(userAnswer.value)
  {
    var d := if domain.Some? then map["domain" := Str(domain.value)] else map[];
    var w := if word.Some? then map["word" := Str(word.value)] else map[];
    var u := if userAnswer.Some? then map["userAnswer" := Str(userAnswer.value)] else map[];
    d + w + u
  }

  /** The `content` the handler sends to the completion provider: each of
      the three placeholders becomes the value from the request, or stays
      visible when the request left it out. */
  function ScoreUserAnswerPrompt(domain: Option<string>, word: Option<string>, userAnswer: Option<string>): (prompt: string)
    ensures prompt
         == Intro + Filled(domain, "domain") + AfterDomain + Filled(word, "word")
          + AfterWord + Filled(userAnswer, "userAnswer") + AfterAnswer
  {
    var ctx := ScoreContext(domain, word, userAnswer);
    RenderScoreTemplate(ctx);
    assert Lookup(ctx, "domain") == Filled(domain, "domain");
    assert Lookup(ctx, "word") == Filled(word, "word");
    assert Lookup(ctx, "userAnswer") == Filled(userAnswer, "userAnswer");
    Render(ScoreTemplate, ctx)
  }

  /** What a placeholder of the scoring template becomes: the supplied value,
      or the placeholder itself when the field was not supplied. */
  function Filled(field: Option<string>, key: string): string {
    if field.Some? then field.value else Token(key)
  }

  /** Rendering the scoring template replaces its three placeholders by what
      the callback returns for `domain`, `word` and `userAnswer`, and keeps
      every other character. */
  lemma RenderScoreTemplate(ctx: Context)
    ensures Render(ScoreTemplate, ctx)
         == Intro + Lookup(ctx, "domain") + AfterDomain + Lookup(ctx, "word")
          + AfterWord + Lookup(ctx, "userAnswer") + AfterAnswer
  {
    TemplateShape();
    IntroHasNoDollar();
    AfterDomainHasNoDollar();
    AfterWordHasNoDollar();
    AfterAnswerHasNoDollar();
    RenderThreeTokens(Intro, "domain", AfterDomain, "word", AfterWord, "userAnswer", AfterAnswer, ctx);
  }

  /** Text, token, text, token, text, token, text: each token becomes its
      replacement and each stretch of text stays as it is. */
  lemma RenderThreeTokens(t0: string, k1: string, t1: string, k2: string, t2: string, k3: string, t3: string, ctx: Context)
    requires '$' !in t0 && '$' !in t1 && '$' !in t2 && '$' !in t3
    requires IsName(k1) && !IsSpace(k1[0])
    requires IsName(k2) && !IsSpace(k2[0])
    requires IsName(k3) && !IsSpace(k3[0])
    ensures Render(t0 + (Token(k1) + (t1 + (Token(k2) + (t2 + (Token(k3) + t3))))), ctx)
         == t0 + Lookup(ctx, k1) + t1 + Lookup(ctx, k2) + t2 + Lookup(ctx, k3) + t3
  {
    KeyKeepsTrailingSpace(k1);
    KeyKeepsTrailingSpace(k2);
    KeyKeepsTrailingSpace(k3);
    var d, w, u := Lookup(ctx, k1), Lookup(ctx, k2), Lookup(ctx, k3);
    var s3 := Token(k3) + t3;
    var s2 := Token(k2) + (t2 + s3);
    var s1 := Token(k1) + (t1 + s2);
    calc {
      Render(t0 + s1, ctx);
    ==  { RenderLiteralPrefix(t0, s1, ctx); }
      t0 + Render(s1, ctx);
    ==  { RenderTokenPrefix(k1, t1 + s2, ctx);
          RenderLiteralPrefix(t1, s2, ctx); }
      t0 + (d + (t1 + Render(s2, ctx)));
    ==  { RenderTokenPrefix(k2, t2 + s3, ctx);
          RenderLiteralPrefix(t2, s3, ctx); }
      t0 + (d + (t1 + (w + (t2 + Render(s3, ctx)))));
    ==  { RenderTokenPrefix(k3, t3, ctx);
          RenderNoDollar(t3, ctx); }
      t0 + (d + (t1 + (w + (t2 + (u + t3)))));
    ==  { Reassociate(t0, d, t1, w, t2, u, t3); }
      t0 + d + t1 + w + t2 + u + t3;
    }
  }

  /** The template is its fixed text and its three placeholders, in order. */
  lemma TemplateShape()
    ensures ScoreTemplate
         == Intro + (Token("domain") + (AfterDomain + (Token("word") + (AfterWord
          + (Token("userAnswer") + AfterAnswer)))))
  {
    assert "${domain}" == Token("domain");
    assert "${word}" == Token("word");
    assert "${userAnswer}" == Token("userAnswer");
    Reassociate(Intro, "${domain}", AfterDomain, "${word}", AfterWord, "${userAnswer}", AfterAnswer);
  }

  lemma Reassociate(a: string, b: string, c: string, d: string, e: string, f: string, g: string)
    ensures a + b + c + d + e + f + g == a + (b + (c + (d + (e + (f + g)))))
  {
  }

  // Each piece of fixed text on its own, so that the verifier unfolds one
  // literal at a time: none holds a `$`, so no token can form in it.
  lemma IntroHasNoDollar() ensures '$' !in Intro {}
  lemma ScoreFormatHasNoDollar() ensures '$' !in ScoreFormat {}
  lemma ScoreInterfaceHasNoDollar() ensures '$' !in ScoreInterface {}
  lemma AfterDomainHasNoDollar() ensures '$' !in AfterDomain {
    ScoreFormatHasNoDollar();
    ScoreInterfaceHasNoDollar();
  }
  lemma AfterWordHasNoDollar() ensures '$' !in AfterWord {}
  lemma AfterAnswerHasNoDollar() ensures '$' !in AfterAnswer {}

  /** With all three fields supplied no fallback is taken: the prompt is the
      template with exactly the three values in place of the placeholders. */
  lemma ScorePromptAllSupplied(domain: string, word: string, userAnswer: string)
    ensures ScoreUserAnswerPrompt(Some(domain), Some(word), Some(userAnswer))
         == Intro + domain + AfterDomain + word + AfterWord + userAnswer + AfterAnswer
  {
    assert Filled(Some(domain), "domain") == domain;
  }
}

=== FILE: template.dfy ===
/** The placeholder renderer `renderTemplate`.

    A template is scanned once, left to right, for tokens of the regular
    expression `\$\{\s*([^}]+)\s*\}` (global flag). Each token is replaced by
    the value its key has in the context; text outside tokens is copied as it
    is, and replaced text is never scanned again.
 */
module Template {

  datatype Option<T> = None | Some(value: T)

  /** A context value: a single string, or a list of strings. */
  datatype Val = Str(s: string) | Lst(items: seq<string>)

  /** The `data` record handed to the renderer. */
  type Context = map<string, Val>

  /** The separator a list value is joined with. */
  const ListSeparator: string := ", "

  // ---------------------------------------------------------------------
  // Characters and tokens
  // ---------------------------------------------------------------------

  /** ECMAScript `\s`: the WhiteSpace and LineTerminator characters. */
  predicate IsSpace(c: char) {
    || c == '\t' || c == '\n' || c == '\U{000B}' || c == '\U{000C}' || c == '\r'
    || c == ' ' || c == '\U{00A0}' || c == '\U{1680}'
    || ('\U{2000}' <= c <= '\U{200A}')
    || c == '\U{2028}' || c == '\U{2029}' || c == '\U{202F}' || c == '\U{205F}'
    || c == '\U{3000}' || c == '\U{FEFF}'
  }

  /** What the regex can capture between `${` and `}`: at least one
      character, none of them a closing brace. */
  predicate IsName(n: string) {
    |n| > 0 && '}' !in n
  }

  /** The token text `${name}`. */
  function Token(name: string): string {
    "${" + name + "}"
  }

  /** Position of the first `}` in `s`, or `|s|` when there is none. */
  function CloseAt(s: string): (r: nat)
    ensures r <= |s|
    ensures forall i :: 0 <= i < r ==> s[i] != '}'
    ensures r < |s| ==> s[r] == '}'
  {
    if s == [] then 0
    else if s[0] == '}' then 0
    else CloseAt(s[1..]) + 1
  }

  /** The raw name of the token that starts `s`, if one does. A token is `${`,
      at least one character, and the first `}` after it: the character class
      `[^}]` and `\s` both exclude `}`, so no token runs past that brace.
      MatchAtComplete shows that no other token can start `s`. */
  function MatchAt(s: string): (r: Option<string>)
    ensures r.Some? ==> IsName(r.value) && Token(r.value) <= s
    ensures r.Some? ==> |s| >= |r.value| + 3 && s[0] == '$' && s[1] == '{' && s[|r.value| + 2] == '}'
    ensures r.Some? ==> s == Token(r.value) + s[|r.value| + 3..]
  {
    if |s| >= 2 && s[0] == '$' && s[1] == '{' && 0 < CloseAt(s[2..]) < |s| - 2 then
      var n := CloseAt(s[2..]);
      var name := s[2..2 + n];
      assert forall i :: 0 <= i < n ==> name[i] == s[2..][i];
      assert Token(name) == s[..n + 3];
      assert s == s[..n + 3] + s[n + 3..];
      Some(name)
    else
      None
  }

  /** Whenever a token starts `s`, MatchAt finds exactly that token. */
  lemma MatchAtComplete(s: string, name: string)
    requires IsName(name) && Token(name) <= s
    ensures MatchAt(s) == Some(name)
  {
    TokenPrefix(s, name);
  }

  /** The key the regex captures from a raw name: greedy `\s*` drops the
      leading whitespace, but `[^}]+` needs one character, so an all-whitespace
      name keeps its last character. Trailing whitespace stays in the key. */
  function KeyOf(name: string): (key: string)
    requires IsName(name)
    ensures IsName(key) && |key| <= |name| && key == name[|name| - |key|..]
    ensures forall i :: 0 <= i < |name| - |key| ==> IsSpace(name[i])
    ensures |key| == 1 || !IsSpace(key[0])
  {
    if |name| > 1 && IsSpace(name[0]) then
      var key := KeyOf(name[1..]);
      assert name[1..][|name| - 1 - |key|..] == name[|name| - |key|..];
      key
    else
      name
  }

  // ---------------------------------------------------------------------
  // Scanning
  // ---------------------------------------------------------------------

  /** One step of the scan: a character copied as it is, or a matched token
      with its raw name. */
  datatype Piece = Lit(c: char) | Hole(name: string)

  /** The template text a piece stands for. */
  function Raw(p: Piece): string {
    match p
    case Lit(c) => [c]
    case Hole(name) => Token(name)
  }

  /** The template text a list of pieces stands for. */
  function Unscan(ps: seq<Piece>): string {
    if ps == [] then [] else Raw(ps[0]) + Unscan(ps[1..])
  }

  /** Every hole holds a name the regex can capture. */
  predicate HolesNamed(ps: seq<Piece>) {
    forall i :: 0 <= i < |ps| && ps[i].Hole? ==> IsName(ps[i].name)
  }

  /** What a leftmost, non-overlapping scan must produce: every hole is a
      token, and a character is only copied when no token starts at it. */
  predicate Scanned(ps: seq<Piece>) {
    ps == [] ||
    ((match ps[0]
      case Lit(_) => MatchAt(Unscan(ps)).None?
      case Hole(name) => IsName(name))
     && Scanned(ps[1..]))
  }

  /** The matches the global regex finds, in order, with the text between
      them. After a match, the scan resumes just past its `}`. */
  function Scan(t: string): (ps: seq<Piece>)
    ensures Unscan(ps) == t
    ensures HolesNamed(ps)
    decreases |t|
  {
    if t == [] then []
    else
      match MatchAt(t)
      case Some(name) =>
        var rest := t[|name| + 3..];
        assert t == Token(name) + rest;
        [Hole(name)] + Scan(rest)
      case None =>
        assert t == [t[0]] + t[1..];
        [Lit(t[0])] + Scan(t[1..])
  }

  // ---------------------------------------------------------------------
  // Substitution
  // ---------------------------------------------------------------------

  /** `Array.prototype.join`: the elements with `sep` between neighbours.
      The result is empty for no elements and starts with the first one;
      JoinEndsWithLast shows that it ends with the last. */
  function Join(xs: seq<string>, sep: string): (r: string)
    ensures xs == [] ==> r == ""
    ensures xs != [] ==> xs[0] <= r
  {
    if xs == [] then ""
    else if |xs| == 1 then xs[0]
    else xs[0] + sep + Join(xs[1..], sep)
  }

  /** The replacement callback: a list is joined with ", ", a string is used
      as it is (`??` keeps the empty string), and a missing key is put back
      as `${key}`. */
  function Lookup(ctx: Context, key: string): string {
    if key in ctx then
      match ctx[key]
      case Lst(items) => Join(items, ListSeparator)
      case Str(s) => s
    else
      Token(key)
  }

  function Subst(p: Piece, ctx: Context): string
    requires p.Hole? ==> IsName(p.name)
  {
    match p
    case Lit(c) => [c]
    case Hole(name) => Lookup(ctx, KeyOf(name))
  }

  function Emit(ps: seq<Piece>, ctx: Context): string
    requires HolesNamed(ps)
  {
    if ps == [] then [] else Subst(ps[0], ctx) + Emit(ps[1..], ctx)
  }

  /** `renderTemplate(template, data)`. */
  function Render(t: string, ctx: Context): string {
    Emit(Scan(t), ctx)
  }

  // ---------------------------------------------------------------------
  // Helper lemmas for MatchAt
  // ---------------------------------------------------------------------

  /** A token at the start of `s` is `${`, then the text up to the first `}`. */
  lemma TokenPrefix(s: string, name: string)
    requires IsName(name)
    ensures Token(name) <= s ==>
      |s| >= |name| + 3 && s[0] == '$' && s[1] == '{' &&
      CloseAt(s[2..]) == |name| && s[2..2 + |name|] == name
  {
    if Token(name) <= s {
      var t := Token(name);
      assert s[0] == t[0] && s[1] == t[1];
      assert s[2..][|name|] == t[|name| + 2];
      forall i | 0 <= i < |name| ensures s[2..][i] == name[i] {
        assert s[2..][i] == t[i + 2];
      }
      assert forall i :: 0 <= i < |name| ==> s[2..][i] != '}';
    }
  }
}

=== FILE: template_laws.dfy ===
/** What `renderTemplate` promises: the scan is the unique leftmost,
    non-overlapping one; text outside tokens is copied in order; each token is
    replaced by exactly its value, or put back when the key is missing; the
    replacement is never rescanned. */
module TemplateLaws {

  import opened Template

  // ---------------------------------------------------------------------
  // The scan
  // ---------------------------------------------------------------------

  /** Scan follows the leftmost, non-overlapping matching rule: it copies a
      character only where no token starts. */
  lemma {:induction false} ScanIsScanned(t: string)
    ensures Scanned(Scan(t))
    decreases |t|
  {
    if t != [] {
      var ps := Scan(t);
      match MatchAt(t)
      case Some(name) =>
        ScanIsScanned(t[|name| + 3..]);
        assert ps[1..] == Scan(t[|name| + 3..]);
      case None =>
        ScanIsScanned(t[1..]);
        assert ps[1..] == Scan(t[1..]);
    }
  }

  /** Scan is the only piece list that spells the template and obeys the
      leftmost, non-overlapping matching rule. */
  lemma {:induction false} ScanUnique(ps: seq<Piece>)
    requires Scanned(ps)
    ensures Scan(Unscan(ps)) == ps
  {
    if ps != [] {
      var t := Unscan(ps);
      ScanUnique(ps[1..]);
      match ps[0]
      case Lit(c) =>
        assert t == [c] + Unscan(ps[1..]);
        assert t[1..] == Unscan(ps[1..]);
      case Hole(name) =>
        assert t == Token(name) + Unscan(ps[1..]);
        MatchAtComplete(t, name);
        assert t[|name| + 3..] == Unscan(ps[1..]);
    }
  }

  // ---------------------------------------------------------------------
  // Text outside tokens
  // ---------------------------------------------------------------------

  /** Characters copied as they are. */
  function Lits(s: string): (ps: seq<Piece>)
    ensures |ps| == |s| && HolesNamed(ps)
  {
    if s == [] then [] else [Lit(s[0])] + Lits(s[1..])
  }

  /** Rendering piece by piece: the output of a concatenation of pieces is
      the concatenation of their outputs. */
  lemma {:induction false} EmitConcat(a: seq<Piece>, b: seq<Piece>, ctx: Context)
    requires HolesNamed(a) && HolesNamed(b)
    ensures HolesNamed(a + b) && Emit(a + b, ctx) == Emit(a, ctx) + Emit(b, ctx)
  {
    assert forall i :: 0 <= i < |a + b| ==> (a + b)[i] == if i < |a| then a[i] else b[i - |a|];
    if a == [] {
      assert a + b == b;
    } else {
      assert (a + b)[1..] == a[1..] + b;
      EmitConcat(a[1..], b, ctx);
    }
  }

  lemma {:induction false} EmitLits(s: string, ctx: Context)
    ensures Emit(Lits(s), ctx) == s
  {
    if s != [] {
      EmitLits(s[1..], ctx);
      assert Lits(s)[1..] == Lits(s[1..]);
    }
  }

  /** A text without `$` starts no token anywhere: the scan copies it. */
  lemma {:induction false} ScanLiteralPrefix(s: string, rest: string)
    requires '$' !in s
    ensures Scan(s + rest) == Lits(s) + Scan(rest)
  {
    if s == [] {
      assert s + rest == rest;
    } else {
      var t := s + rest;
      assert t[0] == s[0] && s[0] in s;
      assert MatchAt(t) == None;
      assert t[1..] == s[1..] + rest;
      assert '$' !in s[1..] by {
        assert forall i :: 0 <= i < |s| - 1 ==> s[1..][i] == s[i + 1];
      }
      ScanLiteralPrefix(s[1..], rest);
    }
  }

  /** Text without a `$` is copied unchanged, and rendering carries on
      after it. */
  lemma RenderLiteralPrefix(s: string, rest: string, ctx: Context)
    requires '$' !in s
    ensures Render(s + rest, ctx) == s + Render(rest, ctx)
  {
    ScanLiteralPrefix(s, rest);
    EmitConcat(Lits(s), Scan(rest), ctx);
    EmitLits(s, ctx);
  }

  /** One copied character, when no token starts the text. */
  lemma RenderLit(t: string, ctx: Context)
    requires t != [] && MatchAt(t) == None
    ensures Render(t, ctx) == [t[0]] + Render(t[1..], ctx)
  {
    var ps := Scan(t[1..]);
    assert Scan(t) == [Lit(t[0])] + ps;
    EmitConcat([Lit(t[0])], ps, ctx);
  }

  /** A template without a `$` renders to itself, whatever the context. */
  lemma RenderNoDollar(t: string, ctx: Context)
    requires '$' !in t
    ensures Render(t, ctx) == t
  {
    RenderLiteralPrefix(t, [], ctx);
    assert t + [] == t;
  }

  /** With no `}` there is no token: an unterminated `${` and everything
      else is copied literally. */
  lemma {:induction false} RenderNoCloseBrace(t: string, ctx: Context)
    requires '}' !in t
    ensures Render(t, ctx) == t
  {
    if t != [] {
      assert MatchAt(t) == None;
      RenderLit(t, ctx);
      assert '}' !in t[1..] by {
        assert forall i :: 0 <= i < |t| - 1 ==> t[1..][i] == t[i + 1];
      }
      RenderNoCloseBrace(t[1..], ctx);
      assert t == [t[0]] + t[1..];
    }
  }

  /** `${}` is not a token: the regex needs at least one character between
      the braces, so the three characters are copied. */
  lemma RenderEmptyBraces(rest: string, ctx: Context)
    ensures Render("${}" + rest, ctx) == "${}" + Render(rest, ctx)
  {
    var t := "${}" + rest;
    calc {
      Render(t, ctx);
    ==  { assert t[2..][0] == '}';
          RenderLit(t, ctx); }
      [t[0]] + Render(t[1..], ctx);
    ==  { assert t[1..] == "{}" + rest; }
      "$" + Render("{}" + rest, ctx);
    ==  { assert '$' !in "{}";
          RenderLiteralPrefix("{}", rest, ctx); }
      "$" + ("{}" + Render(rest, ctx));
    ==
      "${}" + Render(rest, ctx);
    }
  }

  // ---------------------------------------------------------------------
  // Tokens
  // ---------------------------------------------------------------------

  /** A token is replaced by what the callback returns for its key, and the
      scan resumes right after the `}`: the replacement is not rescanned. */
  lemma RenderTokenPrefix(name: string, rest: string, ctx: Context)
    requires IsName(name)
    ensures Render(Token(name) + rest, ctx) == Lookup(ctx, KeyOf(name)) + Render(rest, ctx)
  {
    var t := Token(name) + rest;
    MatchAtComplete(t, name);
    assert t[|name| + 3..] == rest;
    var ps := Scan(rest);
    assert Scan(t) == [Hole(name)] + ps;
    EmitConcat([Hole(name)], ps, ctx);
  }

  /** A key bound to a string is replaced by exactly that string, including
      the empty string and a string that itself looks like a token. */
  lemma RenderStringValue(key: string, v: string, rest: string, ctx: Context)
    requires IsName(key) && (|key| == 1 || !IsSpace(key[0]))
    requires key in ctx && ctx[key] == Str(v)
    ensures Render(Token(key) + rest, ctx) == v + Render(rest, ctx)
  {
    KeyOfItself(key);
    RenderTokenPrefix(key, rest, ctx);
  }

  /** A key bound to a list is replaced by its elements joined with ", ". */
  lemma RenderListValue(key: string, items: seq<string>, rest: string, ctx: Context)
    requires IsName(key) && (|key| == 1 || !IsSpace(key[0]))
    requires key in ctx && ctx[key] == Lst(items)
    ensures Render(Token(key) + rest, ctx) == Join(items, ", ") + Render(rest, ctx)
  {
    KeyOfItself(key);
    RenderTokenPrefix(key, rest, ctx);
  }

  /** A missing key leaves the token visible as `${key}`; when the name is
      its own key (no whitespace after `${`, or a single character), that is
      the token exactly as written. */
  lemma RenderMissingKey(name: string, rest: string, ctx: Context)
    requires IsName(name) && KeyOf(name) !in ctx
    ensures Render(Token(name) + rest, ctx) == Token(KeyOf(name)) + Render(rest, ctx)
    ensures |name| == 1 || !IsSpace(name[0]) ==> Render(Token(name) + rest, ctx) == Token(name) + Render(rest, ctx)
  {
    RenderTokenPrefix(name, rest, ctx);
    KeyOfItself(name);
  }

  /** `${ }` with `" "` unbound comes back as written: the regex backtracks
      and captures the single space as the key. */
  lemma RenderSingleSpaceMissing(rest: string, ctx: Context)
    requires " " !in ctx
    ensures Render("${ }" + rest, ctx) == "${ }" + Render(rest, ctx)
  {
    assert Token(" ") == "${ }";
    KeyOfItself(" ");
    RenderMissingKey(" ", rest, ctx);
  }

  /** A name is its own key exactly when it is a single character or does
      not start with whitespace. */
  lemma KeyOfItself(name: string)
    requires IsName(name)
    ensures KeyOf(name) == name <==> |name| == 1 || !IsSpace(name[0])
  {
    if |name| == 1 {
      assert KeyOf(name) == name[0..];
    }
  }

  /** Every hole of a scan holds a name that is its own key: a single
      character, or no whitespace right after its `${`. */
  predicate HolesSelfKeyed(ps: seq<Piece>) {
    forall i :: 0 <= i < |ps| && ps[i].Hole? ==> IsName(ps[i].name) && KeyOf(ps[i].name) == ps[i].name
  }

  /** With an empty context, self-keyed holes are put back as written. */
  lemma {:induction false} EmitEmptyContext(ps: seq<Piece>)
    requires HolesSelfKeyed(ps)
    ensures HolesNamed(ps) && Emit(ps, map[]) == Unscan(ps)
  {
    if ps != [] {
      assert HolesSelfKeyed(ps[1..]) by {
        forall i | 0 <= i < |ps[1..]| && ps[1..][i].Hole?
          ensures IsName(ps[1..][i].name) && KeyOf(ps[1..][i].name) == ps[1..][i].name
        {
          assert ps[1..][i] == ps[i + 1];
        }
      }
      EmitEmptyContext(ps[1..]);
    }
  }

  /** Rendering with an empty context is the identity on templates whose
      matched tokens have names that are their own keys: every token is put
      back as it was written. Text inside a matched token is not
      constrained. */
  lemma RenderEmptyContext(t: string)
    requires HolesSelfKeyed(Scan(t))
    ensures Render(t, map[]) == t
  {
    EmitEmptyContext(Scan(t));
  }

  /** No token starts anywhere in `t`. */
  predicate NoToken(t: string) {
    forall i :: 0 <= i < |t| ==> MatchAt(t[i..]).None?
  }

  /** A template in which no token starts anywhere renders to itself,
      whatever the context: `$`, `{` and `}` that do not form a token are
      copied. */
  lemma {:induction false} RenderNoToken(t: string, ctx: Context)
    requires NoToken(t)
    ensures Render(t, ctx) == t
  {
    if t != [] {
      assert t[0..] == t;
      RenderLit(t, ctx);
      assert NoToken(t[1..]) by {
        forall i | 0 <= i < |t[1..]| ensures MatchAt(t[1..][i..]).None? {
          assert t[1..][i..] == t[i + 1..];
        }
      }
      RenderNoToken(t[1..], ctx);
      assert t == [t[0]] + t[1..];
    }
  }

  /** A `$` followed by `}` and a `${` with no `}` after it are no tokens. */
  lemma NoTokenExample(ctx: Context)
    ensures Render("$a}x${ b", ctx) == "$a}x${ b"
  {
    var t := "$a}x${ b";
    forall i | 0 <= i < |t| ensures MatchAt(t[i..]).None? {
      if i == 4 {
        assert '}' !in t[i..][2..];
      }
    }
    RenderNoToken(t, ctx);
  }

  // ---------------------------------------------------------------------
  // Keys
  // ---------------------------------------------------------------------

  /** Leading whitespace before a key is dropped, however much of it. */
  lemma {:induction false} KeyDropsLeadingSpace(ws: string, name: string)
    requires forall i :: 0 <= i < |ws| ==> IsSpace(ws[i])
    requires IsName(name)
    ensures IsName(ws + name) && KeyOf(ws + name) == KeyOf(name)
  {
    SpacesThenName(ws, name);
    if ws == [] {
      assert ws + name == name;
    } else {
      var n := ws + name;
      assert n[0] == ws[0] && n[1..] == ws[1..] + name;
      KeyDropsLeadingSpace(ws[1..], name);
      KeyOfSpaceStep(n);
    }
  }

  lemma SpacesThenName(ws: string, name: string)
    requires forall i :: 0 <= i < |ws| ==> IsSpace(ws[i])
    requires IsName(name)
    ensures IsName(ws + name)
  {
    var n := ws + name;
    forall i | 0 <= i < |n| ensures n[i] != '}' {
      if i < |ws| {
        assert n[i] == ws[i] && IsSpace(ws[i]);
      } else {
        assert n[i] == name[i - |ws|];
      }
    }
  }

  lemma KeyOfSpaceStep(n: string)
    requires IsName(n) && IsName(n[1..]) && IsSpace(n[0]) && |n| > 1
    ensures KeyOf(n) == KeyOf(n[1..])
  {
  }

  /** Trailing whitespace is kept: a name that does not start with
      whitespace is its own key. */
  lemma KeyKeepsTrailingSpace(name: string)
    requires IsName(name) && !IsSpace(name[0])
    ensures KeyOf(name) == name
  {
  }

  /** An all-whitespace name keeps its last character as the key. */
  lemma KeyOfAllSpace(name: string)
    requires IsName(name)
    requires forall i :: 0 <= i < |name| ==> IsSpace(name[i])
    ensures KeyOf(name) == [name[|name| - 1]]
  {
    var key := KeyOf(name);
    assert key[0] == name[|name| - |key|];
  }

  /** A token with whitespace before its key looks that key up. */
  lemma RenderLeadingSpace(ws: string, key: string, rest: string, ctx: Context)
    requires forall i :: 0 <= i < |ws| ==> IsSpace(ws[i])
    requires IsName(key) && !IsSpace(key[0])
    ensures IsName(ws + key)
    ensures Render(Token(ws + key) + rest, ctx) == Lookup(ctx, key) + Render(rest, ctx)
  {
    KeyDropsLeadingSpace(ws, key);
    RenderTokenPrefix(ws + key, rest, ctx);
  }

  /** A token with whitespace after its key (`${domain }`) looks up the key
      with that whitespace, so a binding of the bare key is not used. */
  lemma RenderTrailingSpace(key: string, c: char, rest: string, ctx: Context)
    requires IsName(key) && !IsSpace(key[0]) && IsSpace(c)
    ensures IsName(key + [c])
    ensures Render(Token(key + [c]) + rest, ctx) == Lookup(ctx, key + [c]) + Render(rest, ctx)
    ensures key + [c] !in ctx ==>
      Render(Token(key + [c]) + rest, ctx) == Token(key + [c]) + Render(rest, ctx)
  {
    var name := key + [c];
    assert name[0] == key[0];
    assert forall i :: 0 <= i < |name| ==> name[i] != '}' by {
      assert forall i :: 0 <= i < |key| ==> name[i] == key[i];
    }
    KeyOfItself(name);
    RenderTokenPrefix(name, rest, ctx);
  }

  // ---------------------------------------------------------------------
  // One pass only
  // ---------------------------------------------------------------------

  /** A replacement that is itself a token is output as it is, even when
      the context binds that token's key: it is never rescanned. */
  lemma NoRescan(a: string, b: string, v: string, rest: string)
    requires IsName(a) && !IsSpace(a[0]) && a != b
    ensures Render(Token(a) + rest, map[a := Str(Token(b)), b := Str(v)])
         == Token(b) + Render(rest, map[a := Str(Token(b)), b := Str(v)])
  {
    RenderStringValue(a, Token(b), rest, map[a := Str(Token(b)), b := Str(v)]);
  }

  /** One pass does not mean a token-free result: a `$` just before a token
      is copied, and a replacement starting with `{` completes a new `${...}`
      in the output, which stays there. */
  lemma DollarBeforeToken(a: string, b: string, rest: string, ctx: Context)
    requires IsName(a) && !IsSpace(a[0])
    requires a in ctx && ctx[a] == Str("{" + b + "}")
    ensures Render("$" + (Token(a) + rest), ctx) == Token(b) + Render(rest, ctx)
  {
    var t := "$" + (Token(a) + rest);
    var r := Render(rest, ctx);
    assert t[0] == '$' && t[1..] == Token(a) + rest;
    assert MatchAt(t) == None by {
      assert t[1] == Token(a)[0] == '$';
    }
    RenderLit(t, ctx);
    RenderStringValue(a, "{" + b + "}", rest, ctx);
    BracesAfterDollar(b, r);
  }

  lemma BracesAfterDollar(b: string, r: string)
    ensures "$" + (("{" + b + "}") + r) == Token(b) + r
  {
  }

  // ---------------------------------------------------------------------
  // Join
  // ---------------------------------------------------------------------

  function TotalLength(xs: seq<string>): nat {
    if xs == [] then 0 else |xs[0]| + TotalLength(xs[1..])
  }

  /** The joined text is the elements plus one separator between each pair. */
  lemma {:induction false} JoinLength(xs: seq<string>, sep: string)
    requires xs != []
    ensures |Join(xs, sep)| == TotalLength(xs) + (|xs| - 1) * |sep|
  {
    if |xs| > 1 {
      JoinLength(xs[1..], sep);
    }
  }

  /** The joined text ends with the last element. */
  lemma {:induction false} JoinEndsWithLast(xs: seq<string>, sep: string)
    requires xs != []
    ensures |xs[|xs| - 1]| <= |Join(xs, sep)|
    ensures Join(xs, sep)[|Join(xs, sep)| - |xs[|xs| - 1]|..] == xs[|xs| - 1]
  {
    if |xs| > 1 {
      JoinEndsWithLast(xs[1..], sep);
      var r, u := Join(xs, sep), Join(xs[1..], sep);
      assert r == (xs[0] + sep) + u;
      assert r[|r| - |u|..] == u;
    }
  }

  /** Joining grows left to right: appending an element appends the
      separator and that element. */
  lemma {:induction false} JoinAppend(xs: seq<string>, y: string, sep: string)
    requires xs != []
    ensures Join(xs + [y], sep) == Join(xs, sep) + sep + y
  {
    var ys := xs + [y];
    assert ys[0] == xs[0] && ys[1..] == xs[1..] + [y];
    if |xs| == 1 {
      assert ys[1..] == [y];
    } else {
      JoinAppend(xs[1..], y, sep);
    }
  }

  /** `[]` gives "", `[x]` gives x, and `[a, b, c]` gives a, the separator,
      b, the separator, c. */
  lemma JoinExamples(x: string, a: string, b: string, c: string, sep: string)
    ensures Join([], sep) == ""
    ensures Join([x], sep) == x
    ensures Join([a, b, c], sep) == a + sep + b + sep + c
  {
    assert [a, b, c][1..] == [b, c];
    assert [b, c][1..] == [c];
    assert Join([b, c], sep) == b + sep + c;
  }
}
